=== FILE: README.md ===
# Food finder price resolver

A model of the core of the food finder, a small Express server. It holds two
static tables: `foodSuppliers`, which maps a food name to the IDs of the
vendors that sell it, and `foodVendors`, which maps a vendor ID to its
inventory of prices. It exposes them through two JSON routes,
`GET /api/vendors/:food` and `GET /api/prices/:vendor`. The async function
`getPrices(name)` answers a food query by calling its own routes over HTTP
in two dependent stages. First `getVendors` fetches the vendor IDs for the
food. Then a sequential loop fetches one price record per vendor.

The model is in five modules:

- `Wrappers`: `Option` and `Result`.
- `Numbers`: the two number conversions the price URL goes through.
  `Render` is JavaScript's `String(n)` for an integer. `ParseInt` is the
  global `parseInt` of section 19.2.5 of ECMA-262: leading white space, an
  optional sign, a `0x` prefix that switches to radix 16, the longest run of
  digits, and `NaN` (`None`) when there are no digits.
- `Catalog`: the two tables as a `Catalog` value (`Shipped` is the pair the
  server is built with), and the two route filters.
- `Routes`: the loopback URLs and `Dispatch`. `Dispatch` maps a URL to the
  JSON body the server sends, or to `None` when no JSON route matches. For
  an unmatched URL Express sends an HTML 404 page, which `res.json()` cannot
  parse.
- `Resolver`: `getVendors` and `getPrices`.
  - `VendorIds`, `PriceSlot`, `PricesUrls`, `PriceSlots` and `GetPrices` are
    pure reference functions.
  - Four methods follow the code statement by statement, and each is proved
    equal to its reference:
    - `GetVendors` to `VendorIds`;
    - `CallPrices` to `PriceSlot`, or `undefined` for a failed call;
    - `PriceLoop` to `PricesUrls` and `PriceSlots`;
    - `GetPricesLoop` to `GetPrices`.

The HTTP client is a parameter. The calls of one resolution are numbered in
the order they are issued: call 0 is the vendor-ID lookup, and call `i + 1`
is the price lookup for the `i`-th vendor. Call `k` fails exactly when `k` is
in the set `failing`. A failed call covers both a transport error and a body
that does not parse. It reaches a `.catch` that only logs, so the awaited
value is `undefined` (`None`).

Two behaviours of the code shape the model:

- **A failed first stage.** When the vendor-ID call fails, `food` is
  `undefined`, and `!food.length` (app.js:36) throws a TypeError, so the
  promise rejects. The model gives that rejection as
  `Failure(UndefinedLength)`. It is distinct from the `Success([])` of a food
  the table does not list.
- **The shape of each slot.** The loop pushes whatever the price call
  produced (app.js:52):
  - on success, the route's array of matching vendor records, with 0 or 1
    elements;
  - on failure, `undefined`.

## Model

| member | source | states |
|---|---|---|
| Catalog.SuppliersNamed | app.js:63 | The supplier filter's result holds exactly the records whose food equals the name, with no partial or case-folded match. It is empty when no record matches and never longer than the table. |
| Catalog.SuppliersNamedCounts | app.js:63 | Like `filter`, the supplier route keeps every matching record as many times as the table holds it, and drops every other record. |
| Catalog.SuppliersNamedFirst | app.js:63 | The supplier route's first element is the first record in the table whose food matches, which is what `food[0]` reads. |
| Catalog.SuppliersNamedAppend | app.js:63 | Like `filter`, the supplier route keeps table order: filtering a table made of two parts gives the matches of the first part followed by those of the second. |
| Catalog.VendorsWithId | app.js:68 | The price filter's result holds exactly the vendors whose ID equals the parsed parameter. A `NaN` parameter matches no vendor. |
| Catalog.VendorsWithIdCounts | app.js:68 | Like `filter`, the price route keeps every vendor with a matching ID as many times as the table holds it, and drops every other vendor. |
| Catalog.VendorsWithIdFirst | app.js:68 | The price route's first element is the first vendor in the table with the matching ID. |
| Catalog.VendorsWithIdAppend | app.js:68 | Like `filter`, the price route keeps table order: filtering a table made of two parts gives the matches of the first part followed by those of the second. |
| Catalog.AtMostOneSupplier | app.js:10-16 | When the food names are distinct, the supplier route returns at most one record. |
| Catalog.AtMostOneVendor | app.js:18-22 | When the vendor IDs are distinct, the price route returns at most one record. |
| Catalog.ShippedWellFormed | app.js:10-22 | The shipped tables have distinct food names and distinct vendor IDs. Every vendor listed for a food exists and stocks that food. |
| Catalog.SupplierLookup | app.js:62-65 | With distinct names, the supplier route answers `[s]` for the food of record `s`, and `[]` for a food no record lists. |
| Catalog.VendorLookup | app.js:67-70 | With distinct IDs, the price route answers `[v]` for the ID of vendor `v`, and `[]` for an unknown ID or `NaN`. |
| Catalog.ShippedSupplierLookups | app.js:63 | In the shipped table, "grape" finds its record. "kale" and "Apple" find nothing, because the comparison is exact and case-sensitive. |
| Numbers.Render | app.js:49 | `String(id)` for an integer ID is non-empty text of decimal digits, starting with a minus sign exactly when the ID is negative. `ParseRenderRoundTrip` shows that `parseInt` inverts it. |
| Numbers.ParseInt | app.js:68 | `parseInt` of text that starts with neither white space, a sign nor a decimal digit is `NaN`. `ParseRenderRoundTrip` and `ParseRenderWithSuffix` give its value on rendered IDs. |
| Numbers.ParseIntNeedsDigit | app.js:68 | `parseInt` of text with no decimal digit anywhere is `NaN`. |
| Numbers.ParseIntSkipsSpace | app.js:68 | `parseInt` ignores a leading white-space character. |
| Numbers.ValueOfRender | app.js:49 | Reading the decimal text of a natural number back digit by digit gives the number. |
| Numbers.ParseRenderWithSuffix | app.js:68 | `parseInt` of an integer's decimal text gives the integer when a tail follows it, provided the tail does not start with a digit, nor with `x` or `X` after a lone 0. So the route ignores trailing junk after the ID. |
| Numbers.ParseRenderRoundTrip | app.js:68 | `parseInt(String(id))` is `id` for every integer, negative IDs included. |
| Routes.Param | app.js:62 | A URL has a route parameter exactly when it starts with the route's prefix and the rest is one plain segment. The URL is then that prefix followed by the parameter. |
| Routes.Dispatch | app.js:62-70 | A URL gets a JSON body exactly when it matches one of the two GET routes. Otherwise it gets Express's HTML 404, which `res.json()` cannot read. Every supplier record answered is a table record, and the URL is the vendors prefix followed by that record's food. Every vendor answered is a table vendor whose ID is what `parseInt` reads from the URL's parameter. `DispatchVendorsUrl` and `DispatchPricesUrl` give the answers to the resolver's own URLs. |
| Routes.DispatchVendorsUrl | app.js:62-65 | For a plain name, the stage-one URL reaches the supplier route with the name as its parameter and gets that route's filter result. Any other name, the empty name included, reaches no JSON route. |
| Routes.DispatchPricesUrl | app.js:67-70 | The stage-two URL for any integer ID reaches the price route, whose `parseInt` reads back exactly that ID. |
| Resolver.Fetch | app.js:33-35 | `fetch(url).then(res => res.json()).catch(log)`: the awaited value is `undefined` exactly when the call fails or the server's body is not JSON. Otherwise it is the body the route sends. |
| Resolver.GetVendors | app.js:32-40 | `getVendors` requests the vendors URL. It throws when that call fails or the name reaches no JSON route. It returns `[]` when the route returns no record, and otherwise the vendor list of the first record. |
| Resolver.PricesUrls | app.js:49 | Stage two requests one price URL per vendor ID, in list order. |
| Resolver.PriceSlots | app.js:48-53 | Slot `i` belongs to the `i`-th vendor. It is `undefined` when call `i + 1` failed, and otherwise the price route's answer for that vendor's ID. |
| Resolver.CallPrices | app.js:49-51 | One price call requests the URL of its vendor and yields that vendor's lookup, or `undefined` when the call fails. |
| Resolver.PriceLoop | app.js:48-53 | The sequential loop requests every vendor's price URL in list order. It pushes each slot as `PriceSlots` defines it. |
| Resolver.GetPricesLoop | app.js:45-55 | `getPrices` as written settles exactly as the function `GetPrices` says: the same requests in the same order and the same outcome. |
| Resolver.VendorsOfListedFood | app.js:36-39 | For a food the table lists, a successful first call yields that food's vendor list unchanged and in order. |
| Resolver.VendorsOfFirstMatch | app.js:39 | In any catalog, duplicate names included, a successful first call yields `food[0].vendors`, the vendor list of the first record listed for the name. |
| Resolver.ShippedNamesAreSegments | app.js:10-16 | Every food name in the shipped table reaches the supplier route unchanged. |
| Resolver.UnknownFoodResolvesEmpty | app.js:36-38 | A food the table does not list resolves to `[]` after the one vendor-ID request, and no price call is made. |
| Resolver.FirstStageFailureRejects | app.js:33-36 | A failed vendor-ID call, or a name that reaches no JSON route, makes `getPrices` reject with a TypeError after one request. That outcome is never the empty result. |
| Resolver.ListedFoodSlots | app.js:45-55 | For a listed food of a well-formed catalog, the result has one slot per listed vendor. Each slot is either `undefined` or a one-element array holding a vendor with that ID that stocks the food. |
| Resolver.FailureIsolated | app.js:49-52 | Whether price call `k` fails changes only slot `k - 1`, which becomes `undefined`. The requests, every other slot and success itself are unchanged. |
| Resolver.ResolutionShape | app.js:45-55 | The first request is always the vendors URL. The resolution rejects exactly when `getVendors` does. Otherwise it has one price request per vendor ID and one slot per vendor ID, in order. |
| Resolver.TwoVendorOutcome | app.js:48-53 | A food with two vendors resolves to two slots, filled by calls 1 and 2 in that order. |
| Resolver.GrapeVendorAnswers | app.js:18-22 | The price route answers `[vendor 1]` for ID 1 and `[vendor 3]` for ID 3. |
| Resolver.GrapeResolves | app.js:12 | "grape" resolves to vendors 1 and 3. The two slots are their records, each `undefined` independently when its call fails. |
| Resolver.KaleResolvesEmpty | app.js:36-37 | "kale" resolves to `[]` with one request, and does not throw. |

## Left out

- The Express setup is left out because it is framework wiring, not resolver logic. This covers the `/` route that sends `index.html`, the body parsers, `listen` and the `PORT` variable.
- The `POST /api/vendors` handler is left out because it is only a call site of `getPrices`.
  - It passes `req.body.food` to `getPrices` and sends the result back.
  - A missing field would be fetched as the text `undefined`.
  - A rejection never becomes a response.
- JSON encoding and decoding of bodies is left out: responses are carried as values. For the same reason prices are integer cents (1.5 is 150), since they are only carried and never computed on.
- `console.log` in the `.catch` handlers is left out because it is output only.
- Promise scheduling is left out. Each `await` is modelled as a call completing in issue order, which is what the sequential loop does.
- Routes.IsSegment: a name the URL parser or Express would rewrite is modelled as reaching no JSON route. The real server may instead match the rewritten name. This covers:
  - a `?` or `#` that cuts the path;
  - a percent escape that Express decodes;
  - a trailing `/` that Express's non-strict routing accepts;
  - a dot segment or a trailing space that the parser removes.

  Names made of other characters travel unchanged and are modelled exactly.
- Numbers.Render: vendor IDs are exact integers. The model leaves out the IEEE-754 double precision of JavaScript numbers above 2^53, the exponent notation `String(n)` uses from 10^21 on, and non-integral or non-numeric IDs in a vendor list.
- Resolver.GetVendors: a successful first call that returns a non-array JSON body, or a record without a `vendors` array, is not modelled. The supplier route only ever sends an array of supplier records.

=== FILE: catalog.dfy ===
/**
 * The two static tables of the food finder and the filters its two JSON routes
 * apply to them: food name to supplying vendor IDs, and vendor ID to price
 * inventory. The operations take the tables as a value; `Shipped` is the pair
 * the server is built with.
 */
module Catalog {
  import opened Wrappers

  type FoodName = string
  type VendorId = int
  /** Prices are carried but never computed on; integer cents stand in for the decimals. */
  type Cents = nat

  datatype SupplierRecord = SupplierRecord(food: FoodName, vendors: seq<VendorId>)
  datatype VendorRecord = VendorRecord(id: VendorId, inventory: map<FoodName, Cents>)
  datatype Catalog = Catalog(suppliers: seq<SupplierRecord>, vendors: seq<VendorRecord>)

  const Apple := SupplierRecord("apple", [1])
  const Grape := SupplierRecord("grape", [1, 3])
  const Chicken := SupplierRecord("chicken", [2])
  const Potato := SupplierRecord("potato", [2])
  const Fish := SupplierRecord("fish", [3])

  const Vendor1 := VendorRecord(1, map["apple" := 150, "grape" := 250])
  const Vendor2 := VendorRecord(2, map["potato" := 150, "chicken" := 250])
  const Vendor3 := VendorRecord(3, map["fish" := 150, "grape" := 250])

  /** `foodSuppliers` and `foodVendors`. */
  const Shipped := Catalog([Apple, Grape, Chicken, Potato, Fish], [Vendor1, Vendor2, Vendor3])

  /**
   * `table.filter(word => food === word.food)`: the entries whose food is
   * exactly `food`, in table order.
   */
  function SuppliersNamed(table: seq<SupplierRecord>, food: FoodName): (r: seq<SupplierRecord>)
    ensures forall s :: s in r <==> s in table && s.food == food
    ensures (forall s :: s in table ==> s.food != food) ==> r == []
    ensures |r| <= |table|
  {
    if |table| == 0 then []
    else if table[0].food == food then [table[0]] + SuppliersNamed(table[1..], food)
    else SuppliersNamed(table[1..], food)
  }

  /**
   * `table.filter(word => key === word.id)`: the entries whose ID equals
   * `key`, in table order; a `NaN` key (None) equals no ID.
   */
  function VendorsWithId(table: seq<VendorRecord>, key: Option<int>): (r: seq<VendorRecord>)
    ensures forall v :: v in r <==> v in table && key == Some(v.id)
    ensures (forall v :: v in table ==> key != Some(v.id)) ==> r == []
    ensures |r| <= |table|
  {
    if |table| == 0 then []
    else if key == Some(table[0].id) then [table[0]] + VendorsWithId(table[1..], key)
    else VendorsWithId(table[1..], key)
  }

  /** The supplier filter keeps each matching entry as often as it occurs, and nothing else. */
  lemma {:induction false} SuppliersNamedCounts(table: seq<SupplierRecord>, food: FoodName)
    ensures var r := SuppliersNamed(table, food);
      forall s :: multiset(r)[s] == if s.food == food then multiset(table)[s] else 0
  {
    if |table| > 0 {
      SuppliersNamedCounts(table[1..], food);
      assert table == [table[0]] + table[1..];
    }
  }

  /** The supplier filter keeps table order: its result starts with the first matching entry. */
  lemma {:induction false} SuppliersNamedFirst(table: seq<SupplierRecord>, food: FoodName, i: nat)
    requires i < |table| && table[i].food == food
    requires forall j :: 0 <= j < i ==> table[j].food != food
    ensures var r := SuppliersNamed(table, food); |r| > 0 && r[0] == table[i]
  {
    if i > 0 {
      var rest := table[1..];
      assert rest[i - 1] == table[i];
      forall j | 0 <= j < i - 1 ensures rest[j].food != food {
        assert rest[j] == table[j + 1];
      }
      SuppliersNamedFirst(rest, food, i - 1);
    }
  }

  /** The price filter keeps each matching entry as often as it occurs, and nothing else. */
  lemma {:induction false} VendorsWithIdCounts(table: seq<VendorRecord>, key: Option<int>)
    ensures var r := VendorsWithId(table, key);
      forall v :: multiset(r)[v] == if key == Some(v.id) then multiset(table)[v] else 0
  {
    if |table| > 0 {
      VendorsWithIdCounts(table[1..], key);
      assert table == [table[0]] + table[1..];
    }
  }

  /** The price filter keeps table order: its result starts with the first matching entry. */
  lemma {:induction false} VendorsWithIdFirst(table: seq<VendorRecord>, key: Option<int>, i: nat)
    requires i < |table| && key == Some(table[i].id)
    requires forall j :: 0 <= j < i ==> key != Some(table[j].id)
    ensures var r := VendorsWithId(table, key); |r| > 0 && r[0] == table[i]
  {
    if i > 0 {
      var rest := table[1..];
      assert rest[i - 1] == table[i];
      forall j | 0 <= j < i - 1 ensures key != Some(rest[j].id) {
        assert rest[j] == table[j + 1];
      }
      VendorsWithIdFirst(rest, key, i - 1);
    }
  }

  /**
   * The supplier filter keeps table order: filtering a table split in two
   * gives the matches of the first part followed by those of the second.
   */
  lemma {:induction false} SuppliersNamedAppend(a: seq<SupplierRecord>, b: seq<SupplierRecord>, food: FoodName)
    ensures SuppliersNamed(a + b, food) == SuppliersNamed(a, food) + SuppliersNamed(b, food)
  {
    if |a| > 0 {
      assert (a + b)[1..] == a[1..] + b;
      SuppliersNamedAppend(a[1..], b, food);
    } else {
      assert a + b == b;
    }
  }

  /** The price filter keeps table order in the same way. */
  lemma {:induction false} VendorsWithIdAppend(a: seq<VendorRecord>, b: seq<VendorRecord>, key: Option<int>)
    ensures VendorsWithId(a + b, key) == VendorsWithId(a, key) + VendorsWithId(b, key)
  {
    if |a| > 0 {
      assert (a + b)[1..] == a[1..] + b;
      VendorsWithIdAppend(a[1..], b, key);
    } else {
      assert a + b == b;
    }
  }

  /** The filter of the `/api/vendors/:food` route. */
  function FindSuppliers(c: Catalog, food: FoodName): seq<SupplierRecord> {
    SuppliersNamed(c.suppliers, food)
  }

  /** The filter of the `/api/prices/:vendor` route, given the parsed parameter. */
  function FindVendors(c: Catalog, key: Option<int>): seq<VendorRecord> {
    VendorsWithId(c.vendors, key)
  }

  ghost predicate DistinctFoods(table: seq<SupplierRecord>) {
    forall i, j :: 0 <= i < j < |table| ==> table[i].food != table[j].food
  }

  ghost predicate DistinctIds(table: seq<VendorRecord>) {
    forall i, j :: 0 <= i < j < |table| ==> table[i].id != table[j].id
  }

  /** Every vendor listed for a food exists and stocks that food. */
  ghost predicate Consistent(c: Catalog) {
    forall s, id :: s in c.suppliers && id in s.vendors ==>
      exists v :: v in c.vendors && v.id == id && s.food in v.inventory
  }

  /** The shape the two tables have: unique keys, and supplier lists that agree with the inventories. */
  ghost predicate WellFormed(c: Catalog) {
    DistinctFoods(c.suppliers) && DistinctIds(c.vendors) && Consistent(c)
  }

  lemma {:induction false} AtMostOneSupplier(table: seq<SupplierRecord>, food: FoodName)
    requires DistinctFoods(table)
    ensures |SuppliersNamed(table, food)| <= 1
  {
    if |table| > 0 {
      var rest := table[1..];
      assert DistinctFoods(rest) by {
        forall i, j | 0 <= i < j < |rest| ensures rest[i].food != rest[j].food {
          assert rest[i] == table[i + 1] && rest[j] == table[j + 1];
        }
      }
      if table[0].food == food {
        forall s | s in rest ensures s.food != food {
          var k :| 0 <= k < |rest| && rest[k] == s;
          assert table[k + 1] == s;
        }
      } else {
        AtMostOneSupplier(rest, food);
      }
    }
  }

  lemma {:induction false} AtMostOneVendor(table: seq<VendorRecord>, key: Option<int>)
    requires DistinctIds(table)
    ensures |VendorsWithId(table, key)| <= 1
  {
    if |table| > 0 {
      var rest := table[1..];
      assert DistinctIds(rest) by {
        forall i, j | 0 <= i < j < |rest| ensures rest[i].id != rest[j].id {
          assert rest[i] == table[i + 1] && rest[j] == table[j + 1];
        }
      }
      if key == Some(table[0].id) {
        forall v | v in rest ensures key != Some(v.id) {
          var k :| 0 <= k < |rest| && rest[k] == v;
          assert table[k + 1] == v;
        }
      } else {
        AtMostOneVendor(rest, key);
      }
    }
  }

  lemma ShippedDistinctFoods()
    ensures DistinctFoods(Shipped.suppliers)
  {
  }

  lemma ShippedDistinctIds()
    ensures DistinctIds(Shipped.vendors)
  {
  }

  /** The catalog as written: distinct food names, distinct vendor IDs, and every listed vendor stocks the food. */
  lemma ShippedWellFormed()
    ensures WellFormed(Shipped)
  {
  }

  /**
   * With distinct food names the supplier route returns exactly the entry of
   * that food, and nothing for a food the table does not list.
   */
  lemma SupplierLookup(c: Catalog, food: FoodName)
    requires DistinctFoods(c.suppliers)
    ensures forall s :: s in c.suppliers && s.food == food ==> FindSuppliers(c, food) == [s]
    ensures (forall s :: s in c.suppliers ==> s.food != food) ==> FindSuppliers(c, food) == []
  {
    AtMostOneSupplier(c.suppliers, food);
  }

  /** With distinct IDs the price route returns exactly the vendor with that ID, and nothing for an unknown ID or `NaN`. */
  lemma VendorLookup(c: Catalog, key: Option<int>)
    requires DistinctIds(c.vendors)
    ensures forall v :: v in c.vendors && key == Some(v.id) ==> FindVendors(c, key) == [v]
    ensures (forall v :: v in c.vendors ==> key != Some(v.id)) ==> FindVendors(c, key) == []
  {
    AtMostOneVendor(c.vendors, key);
  }

  /** The lookup is exact and case-sensitive. */
  lemma ShippedSupplierLookups()
    ensures FindSuppliers(Shipped, "grape") == [Grape]
    ensures FindSuppliers(Shipped, "kale") == []
    ensures FindSuppliers(Shipped, "Apple") == []
  {
    ShippedDistinctFoods();
    SupplierLookup(Shipped, "grape");
    SupplierLookup(Shipped, "kale");
    SupplierLookup(Shipped, "Apple");
  }
}

=== FILE: numbers.dfy ===
/**
 * The two JavaScript number conversions on the price route: `String(n)` when a
 * vendor ID is concatenated into a URL, and the global `parseInt` (section 19.2.5
 * of ECMA-262) when the route reads it back. Numbers are exact integers here;
 * `NaN` is `None`.
 */
module Numbers {
  import opened Wrappers

  predicate IsDecimalDigit(c: char) {
    '0' <= c <= '9'
  }

  /** StrWhiteSpaceChar of ECMA-262: the WhiteSpace and LineTerminator code points. */
  predicate IsJsSpace(c: char) {
    var k := c as int;
    k == 0x09 || k == 0x0A || k == 0x0B || k == 0x0C || k == 0x0D || k == 0x20
    || k == 0xA0 || k == 0x1680 || (0x2000 <= k <= 0x200A) || k == 0x2028 || k == 0x2029
    || k == 0x202F || k == 0x205F || k == 0x3000 || k == 0xFEFF
  }

  /** The value of `c` as a digit in `radix` (10 or 16), if it is one. */
  function DigitValue(c: char, radix: nat): (d: Option<nat>)
    requires radix == 10 || radix == 16
    ensures d.Some? ==> d.value < radix
    ensures radix == 10 ==> (d.Some? <==> IsDecimalDigit(c))
  {
    if '0' <= c <= '9' then Some(c as int - '0' as int)
    else if radix == 16 && 'a' <= c <= 'f' then Some(c as int - 'a' as int + 10)
    else if radix == 16 && 'A' <= c <= 'F' then Some(c as int - 'A' as int + 10)
    else None
  }

  function DigitChar(d: nat): (c: char)
    requires d < 10
    ensures IsDecimalDigit(c)
    ensures DigitValue(c, 10) == Some(d)
  {
    ('0' as int + d) as char
  }

  /** Decimal text of a natural number, most significant digit first, without leading zeros. */
  function RenderNat(n: nat): (s: string)
    ensures |s| > 0
    ensures forall i :: 0 <= i < |s| ==> IsDecimalDigit(s[i])
    ensures s[0] == '0' <==> n == 0
    decreases n
  {
    if n < 10 then [DigitChar(n)] else RenderNat(n / 10) + [DigitChar(n % 10)]
  }

  /** `String(n)` for an integral JavaScript number: a minus sign, then the decimal digits. */
  function Render(n: int): (s: string)
    ensures |s| > 0
    ensures s[0] == '-' <==> n < 0
    ensures forall i :: 0 < i < |s| ==> IsDecimalDigit(s[i])
    ensures forall i :: 0 <= i < |s| ==> IsDecimalDigit(s[i]) || s[i] == '-'
  {
    if n < 0 then ['-'] + RenderNat(-n) else RenderNat(n)
  }

  /** The input with its leading white space removed. */
  function TrimStart(s: string): (t: string)
    ensures |t| <= |s| && t == s[|s| - |t|..]
    ensures |t| > 0 ==> !IsJsSpace(t[0])
  {
    if |s| > 0 && IsJsSpace(s[0]) then TrimStart(s[1..]) else s
  }

  /** Length of the longest prefix of `s` made only of `radix` digits. */
  function DigitRun(s: string, radix: nat): (n: nat)
    requires radix == 10 || radix == 16
    ensures n <= |s|
    ensures forall i :: 0 <= i < n ==> DigitValue(s[i], radix).Some?
    ensures n < |s| ==> DigitValue(s[n], radix).None?
  {
    if |s| == 0 || DigitValue(s[0], radix).None? then 0 else 1 + DigitRun(s[1..], radix)
  }

  /** The number a string of `radix` digits denotes, most significant digit first. */
  function ValueOf(s: string, radix: nat): nat
    requires radix == 10 || radix == 16
    requires forall i :: 0 <= i < |s| ==> DigitValue(s[i], radix).Some?
  {
    if |s| == 0 then 0
    else ValueOf(s[..|s| - 1], radix) * radix + DigitValue(s[|s| - 1], radix).value
  }

  /** True when `s` opens with the `0x` / `0X` prefix that switches `parseInt` to radix 16. */
  predicate HasHexPrefix(s: string) {
    |s| >= 2 && s[0] == '0' && (s[1] == 'x' || s[1] == 'X')
  }

  /**
   * The digits part of `parseInt`, after white space and sign: switch to radix
   * 16 after a `0x` prefix, then read the longest run of digits and ignore
   * whatever follows. No digits at all gives `NaN`.
   */
  function ParseMagnitude(u: string): (r: Option<nat>)
  {
    var radix := if HasHexPrefix(u) then 16 else 10;
    var w := if HasHexPrefix(u) then u[2..] else u;
    var n := DigitRun(w, radix);
    if n == 0 then None else Some(ValueOf(w[..n], radix))
  }

  /** True when the text after the white space starts with a minus sign. */
  predicate IsNegative(t: string) {
    |t| > 0 && t[0] == '-'
  }

  /** The text after the white space, without its sign. */
  function Unsigned(t: string): (u: string)
    ensures |u| <= |t| && u == t[|t| - |u|..]
  {
    if |t| > 0 && (t[0] == '-' || t[0] == '+') then t[1..] else t
  }

  function ApplySign(negative: bool, magnitude: Option<nat>): Option<int> {
    match magnitude
    case None => None
    case Some(m) => Some(if negative then -(m as int) else m as int)
  }

  /** `parseInt(s)` with no radix argument: skip leading white space, read an optional sign, then the digits. */
  function ParseInt(s: string): (r: Option<int>)
    ensures |s| > 0 && !IsJsSpace(s[0]) && !IsDecimalDigit(s[0]) && s[0] != '-' && s[0] != '+' ==> r == None
  {
    var t := TrimStart(s);
    ApplySign(IsNegative(t), ParseMagnitude(Unsigned(t)))
  }

  /** Text with no decimal digit anywhere parses to `NaN`. */
  lemma ParseIntNeedsDigit(s: string)
    requires forall i :: 0 <= i < |s| ==> !IsDecimalDigit(s[i])
    ensures ParseInt(s) == None
  {
  }

  /** `parseInt` ignores a leading white-space character. */
  lemma ParseIntSkipsSpace(s: string)
    requires |s| > 0 && IsJsSpace(s[0])
    ensures ParseInt(s) == ParseInt(s[1..])
  {
  }

  lemma {:induction false} ValueOfRender(n: nat)
    ensures ValueOf(RenderNat(n), 10) == n
    decreases n
  {
    if n >= 10 {
      var s := RenderNat(n);
      assert s[..|s| - 1] == RenderNat(n / 10);
      ValueOfRender(n / 10);
    }
  }

  lemma {:induction false} DigitRunStopsAtEnd(d: string, rest: string)
    requires forall i :: 0 <= i < |d| ==> IsDecimalDigit(d[i])
    requires |rest| == 0 || !IsDecimalDigit(rest[0])
    ensures DigitRun(d + rest, 10) == |d|
  {
    if |d| > 0 {
      assert (d + rest)[1..] == d[1..] + rest;
      DigitRunStopsAtEnd(d[1..], rest);
    } else {
      assert d + rest == rest;
    }
  }

  lemma MagnitudeOfRendered(m: nat, rest: string)
    requires |rest| == 0 || !IsDecimalDigit(rest[0])
    requires m == 0 && |rest| > 0 ==> rest[0] != 'x' && rest[0] != 'X'
    ensures ParseMagnitude(RenderNat(m) + rest) == Some(m)
  {
    var d := RenderNat(m);
    var u := d + rest;
    assert u[0] == d[0];
    assert !HasHexPrefix(u) by {
      if |d| == 1 && m == 0 {
        assert |rest| > 0 ==> u[1] == rest[0];
      } else if |d| > 1 {
        assert u[1] == d[1];
      }
    }
    DigitRunStopsAtEnd(d, rest);
    assert u[..|d|] == d;
    ValueOfRender(m);
  }

  /**
   * Parsing reads exactly the digits rendering wrote: what follows them is
   * ignored as long as it cannot extend the number (a digit, or an `x` that
   * would turn a rendered `0` into a hexadecimal prefix).
   */
  lemma ParseRenderWithSuffix(n: int, rest: string)
    requires |rest| == 0 || !IsDecimalDigit(rest[0])
    requires n == 0 && |rest| > 0 ==> rest[0] != 'x' && rest[0] != 'X'
    ensures ParseInt(Render(n) + rest) == Some(n)
  {
    if n < 0 {
      var m: nat := -n;
      assert Render(n) == ['-'] + RenderNat(m);
      MagnitudeOfRendered(m, rest);
      ParseMinus(RenderNat(m), rest, m);
    } else {
      assert Render(n) == RenderNat(n);
      MagnitudeOfRendered(n, rest);
      ParseDigitFirst(RenderNat(n), rest, n);
    }
  }

  /** Text that starts with a digit parses as its digits alone. */
  lemma ParseDigitFirst(d: string, rest: string, m: nat)
    requires |d| > 0 && IsDecimalDigit(d[0])
    requires ParseMagnitude(d + rest) == Some(m)
    ensures ParseInt(d + rest) == Some(m)
  {
    var s := d + rest;
    assert s[0] == d[0];
    NoLeadingSpace(s);
    assert !IsNegative(s) && Unsigned(s) == s;
  }

  /** A leading minus sign negates what the digits after it denote. */
  lemma ParseMinus(d: string, rest: string, m: nat)
    requires ParseMagnitude(d + rest) == Some(m)
    ensures ParseInt(['-'] + d + rest) == Some(-(m as int))
  {
    var s := ['-'] + d + rest;
    assert s[0] == '-';
    NoLeadingSpace(s);
    assert IsNegative(s);
    assert Unsigned(s) == d + rest;
  }

  lemma NoLeadingSpace(s: string)
    requires |s| > 0 && (IsDecimalDigit(s[0]) || s[0] == '-')
    ensures TrimStart(s) == s
  {
    assert !IsJsSpace(s[0]);
  }

  /** Rendering an ID into text and parsing it back gives the same ID. */
  lemma ParseRenderRoundTrip(n: int)
    ensures ParseInt(Render(n)) == Some(n)
  {
    assert Render(n) + "" == Render(n);
    ParseRenderWithSuffix(n, "");
  }
}

=== FILE: resolver.dfy ===
/**
 * `getVendors` and `getPrices`: resolve a food name to the price records of
 * the vendors that stock it, through two dependent rounds of loopback calls.
 *
 * The HTTP client is an adapter: the calls of one resolution are numbered in
 * the order they are issued (0 for the vendor-ID lookup, `i + 1` for the price
 * lookup of the `i`-th vendor), and call `k` fails exactly when `k` is in
 * `failing`. A failure (transport error or a body that does not parse) reaches
 * a `.catch` that only logs, so the awaited value is `undefined`, written None.
 */
module Resolver {
  import opened Wrappers
  import opened Catalog
  import opened Routes

  /** What `getPrices` can throw: reading `length` of `undefined` raises a TypeError. */
  datatype Error = UndefinedLength

  /** One element of the `getPrices` array: the parsed body of a price call, or `undefined`. */
  type Slot = Option<Response>

  /** One resolution: the URLs requested, in order, and how the async call settled. */
  datatype Run = Run(requests: seq<string>, outcome: Result<seq<Slot>, Error>)

  /** The HTTP adapter: the `k`-th call of a resolution, for `url`. */
  function Fetch(c: Catalog, url: string, k: nat, failing: set<nat>): (r: Slot)
    ensures r.None? <==> k in failing || Dispatch(c, url).None?
    ensures r.Some? ==> r == Dispatch(c, url)
  {
    if k in failing then None else Dispatch(c, url)
  }

  /** The slot a successful price call fills for vendor `id`: the route's 0-or-1-element array. */
  function PriceSlot(c: Catalog, id: VendorId): Slot {
    Some(Vendors(FindVendors(c, Some(id))))
  }

  /**
   * What `getVendors(name)` settles to: a TypeError when its call failed or the
   * name reaches no JSON route, otherwise the vendor list of the first record
   * the supplier route returns, or `[]` when it returns none.
   */
  function VendorIds(c: Catalog, name: FoodName, failing: set<nat>): Result<seq<VendorId>, Error> {
    if 0 in failing || !IsSegment(name) then Failure(UndefinedLength)
    else if FindSuppliers(c, name) == [] then Success([])
    else Success(FindSuppliers(c, name)[0].vendors)
  }

  /**
   * `getVendors(name)` as written: fetch the vendors URL (call 0), then
   * `food.length` and `food[0].vendors` on whatever the call produced.
   */
  method GetVendors(c: Catalog, name: FoodName, failing: set<nat>) returns (url: string, r: Result<seq<VendorId>, Error>)
    ensures url == VendorsUrl(name)
    ensures r == VendorIds(c, name, failing)
  {
    url := VendorsUrl(name);
    var food := Fetch(c, url, 0, failing);
    DispatchVendorsUrl(c, name);
    match food
    case None =>
      r := Failure(UndefinedLength);
    case Some(Suppliers(s)) =>
      r := if |s| == 0 then Success([]) else Success(s[0].vendors);
    case Some(Vendors(v)) =>
      // A vendor record has no `vendors` field: `food[0].vendors` is `undefined`,
      // and `getPrices` reads its `length` next, before any other call.
      r := if |v| == 0 then Success([]) else Failure(UndefinedLength);
  }

  /** The price URLs of `ids`, in order. */
  function PricesUrls(ids: seq<VendorId>): (urls: seq<string>)
    ensures |urls| == |ids|
    ensures forall i :: 0 <= i < |ids| ==> urls[i] == PricesUrl(ids[i])
  {
    if |ids| == 0 then [] else PricesUrls(ids[..|ids| - 1]) + [PricesUrl(ids[|ids| - 1])]
  }

  /**
   * The slots for `ids`, the `i`-th filled by call `i + 1`: the price route's
   * answer for that vendor, or `undefined` when that call failed.
   */
  function PriceSlots(c: Catalog, ids: seq<VendorId>, failing: set<nat>): (r: seq<Slot>)
    ensures |r| == |ids|
    ensures forall i :: 0 <= i < |ids| ==>
      r[i] == (if i + 1 in failing then None else PriceSlot(c, ids[i]))
  {
    if |ids| == 0 then []
    else
      var last := |ids| - 1;
      PriceSlots(c, ids[..last], failing) + [if last + 1 in failing then None else PriceSlot(c, ids[last])]
  }

  /**
   * What `getPrices(name)` settles to: after the vendor-ID lookup, one price
   * request per vendor in list order, and slot `i` holding the price route's
   * answer for the `i`-th vendor unless call `i + 1` failed.
   */
  function GetPrices(c: Catalog, name: FoodName, failing: set<nat>): Run {
    match VendorIds(c, name, failing)
    case Failure(e) => Run([VendorsUrl(name)], Failure(e))
    case Success(ids) => Run([VendorsUrl(name)] + PricesUrls(ids), Success(PriceSlots(c, ids, failing)))
  }

  /**
   * One price call of the loop: `fetch(".../api/prices/" + id)`, the body
   * parsed, a failure caught as `undefined`. The route reads the ID back out of
   * the URL, so the answer is that vendor's lookup.
   */
  method CallPrices(c: Catalog, id: VendorId, k: nat, failing: set<nat>) returns (url: string, slot: Slot)
    ensures url == PricesUrl(id)
    ensures slot == (if k in failing then None else PriceSlot(c, id))
  {
    url := PricesUrl(id);
    slot := Fetch(c, url, k, failing);
    DispatchPricesUrl(c, id);
  }

  /**
   * The `for` loop of `getPrices`: each vendor in turn, its call awaited before
   * the next is issued, each answer pushed in list order.
   */
  method PriceLoop(c: Catalog, vendors: seq<VendorId>, failing: set<nat>) returns (requests: seq<string>, result: seq<Slot>)
    ensures requests == PricesUrls(vendors)
    ensures result == PriceSlots(c, vendors, failing)
  {
    requests := [];
    result := [];
    var i := 0;
    while i < |vendors|
      invariant 0 <= i <= |vendors|
      invariant requests == PricesUrls(vendors[..i])
      invariant result == PriceSlots(c, vendors[..i], failing)
    {
      assert vendors[..i + 1][..i] == vendors[..i];
      var url, prices := CallPrices(c, vendors[i], i + 1, failing);
      requests := requests + [url];
      result := result + [prices];
      i := i + 1;
    }
    assert vendors[..i] == vendors;
  }

  /** `getPrices(name)` as written: it settles exactly as `GetPrices` says. */
  method GetPricesLoop(c: Catalog, name: FoodName, failing: set<nat>) returns (run: Run)
    ensures run == GetPrices(c, name, failing)
  {
    var first, stage1 := GetVendors(c, name, failing);
    if stage1.Failure? {
      return Run([first], Failure(stage1.error));
    }
    var requests, result := PriceLoop(c, stage1.value, failing);
    run := Run([first] + requests, Success(result));
  }

  /** Every shipped food name reaches the supplier route unchanged. */
  lemma ShippedNamesAreSegments()
    ensures forall s :: s in Shipped.suppliers ==> IsSegment(s.food)
  {
  }

  /** For a food of a well-formed catalog, `getVendors` returns its vendor list unchanged, in order. */
  lemma VendorsOfListedFood(c: Catalog, s: SupplierRecord, failing: set<nat>)
    requires DistinctFoods(c.suppliers)
    requires s in c.suppliers && IsSegment(s.food)
    requires 0 !in failing
    ensures VendorIds(c, s.food, failing) == Success(s.vendors)
  {
  }

  /**
   * In any catalog, duplicates included, a successful first call yields the
   * vendor list of the first record the table lists for the name.
   */
  lemma VendorsOfFirstMatch(c: Catalog, name: FoodName, failing: set<nat>, i: nat)
    requires 0 !in failing && IsSegment(name)
    requires i < |c.suppliers| && c.suppliers[i].food == name
    requires forall j :: 0 <= j < i ==> c.suppliers[j].food != name
    ensures VendorIds(c, name, failing) == Success(c.suppliers[i].vendors)
  {
    SuppliersNamedFirst(c.suppliers, name, i);
  }

  /** An unknown food resolves to `[]` after the one vendor-ID call, with no price call. */
  lemma UnknownFoodResolvesEmpty(c: Catalog, name: FoodName, failing: set<nat>)
    requires 0 !in failing
    requires IsSegment(name)
    requires forall s :: s in c.suppliers ==> s.food != name
    ensures GetPrices(c, name, failing) == Run([VendorsUrl(name)], Success([]))
  {
  }

  /**
   * A failed vendor-ID call, or a name no route accepts, makes `getPrices`
   * reject with a TypeError: never the empty result of an unknown food.
   */
  lemma FirstStageFailureRejects(c: Catalog, name: FoodName, failing: set<nat>)
    requires 0 in failing || !IsSegment(name)
    ensures GetPrices(c, name, failing) == Run([VendorsUrl(name)], Failure(UndefinedLength))
    ensures GetPrices(c, name, failing).outcome != Success([])
  {
  }

  /**
   * For a food of a well-formed catalog, slot `i` answers for the `i`-th listed
   * vendor: either `undefined` because that call failed, or the one-element
   * array holding a vendor with that ID that stocks the food.
   */
  lemma ListedFoodSlots(c: Catalog, s: SupplierRecord, failing: set<nat>)
    requires WellFormed(c)
    requires s in c.suppliers && IsSegment(s.food)
    requires 0 !in failing
    ensures var run := GetPrices(c, s.food, failing);
      && run.outcome.Success?
      && |run.outcome.value| == |s.vendors|
      && forall i :: 0 <= i < |s.vendors| ==>
           if i + 1 in failing then run.outcome.value[i] == None
           else exists v :: v in c.vendors && v.id == s.vendors[i] && s.food in v.inventory
                            && run.outcome.value[i] == Some(Vendors([v]))
  {
    VendorsOfListedFood(c, s, failing);
    var run := GetPrices(c, s.food, failing);
    forall i | 0 <= i < |s.vendors| && i + 1 !in failing
      ensures exists v :: v in c.vendors && v.id == s.vendors[i] && s.food in v.inventory
                          && run.outcome.value[i] == Some(Vendors([v]))
    {
      var id := s.vendors[i];
      assert id in s.vendors;
      var v :| v in c.vendors && v.id == id && s.food in v.inventory;
      VendorLookup(c, Some(id));
      assert run.outcome.value[i] == Some(Vendors([v]));
    }
  }

  /**
   * Failing call `k` (the price call of vendor `k - 1`) changes only slot
   * `k - 1`, which becomes `undefined`; every request is still made.
   */
  lemma FailureIsolated(c: Catalog, name: FoodName, failing: set<nat>, k: nat)
    requires k >= 1
    ensures var up := GetPrices(c, name, failing - {k});
      var down := GetPrices(c, name, failing + {k});
      && up.requests == down.requests
      && (up.outcome.Success? <==> down.outcome.Success?)
      && (up.outcome.Success? ==>
            && |up.outcome.value| == |down.outcome.value|
            && (forall j :: 0 <= j < |up.outcome.value| && j != k - 1 ==>
                  up.outcome.value[j] == down.outcome.value[j])
            && (k - 1 < |down.outcome.value| ==> down.outcome.value[k - 1] == None))
  {
    var up := GetPrices(c, name, failing - {k});
    var down := GetPrices(c, name, failing + {k});
    var stage1 := VendorIds(c, name, failing - {k});
    assert VendorIds(c, name, failing + {k}) == stage1;
    if stage1.Success? {
      forall j | 0 <= j < |stage1.value| && j != k - 1
        ensures up.outcome.value[j] == down.outcome.value[j]
      {
        assert (j + 1 in failing - {k}) == (j + 1 in failing + {k});
      }
    }
  }

  /**
   * One resolution in general: it rejects exactly when `getVendors` does;
   * otherwise it makes one price request per vendor, in list order, and
   * returns one slot per vendor, in the same order.
   */
  lemma ResolutionShape(c: Catalog, name: FoodName, failing: set<nat>)
    ensures var run := GetPrices(c, name, failing);
      && run.requests[0] == VendorsUrl(name)
      && (run.outcome.Failure? <==> VendorIds(c, name, failing).Failure?)
      && (run.outcome.Success? ==>
            var ids := VendorIds(c, name, failing).value;
            && |run.outcome.value| == |ids|
            && |run.requests| == |ids| + 1
            && (forall i :: 0 <= i < |ids| ==> run.requests[i + 1] == PricesUrl(ids[i]))
            && (forall i :: 0 <= i < |ids| ==>
                  run.outcome.value[i] == (if i + 1 in failing then None else PriceSlot(c, ids[i]))))
  {
  }

  /** The price route's answers for the two vendors of grape. */
  lemma GrapeVendorAnswers()
    ensures PriceSlot(Shipped, 1) == Some(Vendors([Vendor1]))
    ensures PriceSlot(Shipped, 3) == Some(Vendors([Vendor3]))
  {
    ShippedDistinctIds();
    VendorLookup(Shipped, Some(1));
    VendorLookup(Shipped, Some(3));
  }

  /** The worked example: grape is sold by vendors 1 and 3, and each price call may fail on its own. */
  lemma GrapeResolves(failing: set<nat>)
    requires 0 !in failing
    ensures VendorIds(Shipped, "grape", failing) == Success([1, 3])
    ensures GetPrices(Shipped, "grape", failing).outcome == Success([
      if 1 in failing then None else Some(Vendors([Vendor1])),
      if 2 in failing then None else Some(Vendors([Vendor3]))])
  {
    ShippedDistinctFoods();
    ShippedNamesAreSegments();
    assert Grape in Shipped.suppliers;
    VendorsOfListedFood(Shipped, Grape, failing);
    GrapeVendorAnswers();
    TwoVendorOutcome(Shipped, "grape", 1, 3, failing);
  }

  /** A food with exactly two vendors resolves to two slots, the first from call 1 and the second from call 2. */
  lemma TwoVendorOutcome(c: Catalog, name: FoodName, a: VendorId, b: VendorId, failing: set<nat>)
    requires VendorIds(c, name, failing) == Success([a, b])
    ensures GetPrices(c, name, failing).outcome == Success([
      if 1 in failing then None else PriceSlot(c, a),
      if 2 in failing then None else PriceSlot(c, b)])
  {
    var slots := PriceSlots(c, [a, b], failing);
    assert slots == [slots[0], slots[1]];
  }

  /** The food the catalog does not list resolves to `[]`, not to an error. */
  lemma KaleResolvesEmpty(failing: set<nat>)
    requires 0 !in failing
    ensures GetPrices(Shipped, "kale", failing) == Run([VendorsUrl("kale")], Success([]))
  {
  }
}

=== FILE: routes.dfy ===
/**
 * The loopback URLs the resolver fetches and the two JSON routes that answer
 * them. A URL no JSON route matches gets Express's HTML 404 page, which is not
 * JSON: the dispatcher answers `None` for it.
 */
module Routes {
  import opened Wrappers
  import opened Catalog
  import Numbers

  const VendorsPrefix := "http://localhost:3000/api/vendors/"
  const PricesPrefix := "http://localhost:3000/api/prices/"

  /** A JSON body the two routes send: an array of supplier records or of vendor records. */
  datatype Response = Suppliers(suppliers: seq<SupplierRecord>) | Vendors(vendors: seq<VendorRecord>)

  /**
   * A character the URL parser and Express carry through a path segment
   * unchanged: not a separator (`/`, and `\` which the parser reads as one),
   * not a query, fragment or escape marker, and not a tab or line break, which
   * the parser deletes.
   */
  predicate IsPathChar(c: char) {
    c != '/' && c != '\\' && c != '?' && c != '#' && c != '%' && c != '\t' && c != '\n' && c != '\r'
  }

  /**
   * A name that reaches a `:param` exactly as written: non-empty, no dot
   * segment, only path characters, and not ending in a space or control
   * character (the parser strips those from the end of a URL).
   */
  predicate IsSegment(s: string) {
    && |s| > 0
    && s != "." && s != ".."
    && s[|s| - 1] > ' '
    && forall i :: 0 <= i < |s| ==> IsPathChar(s[i])
  }

  /** The URL stage one fetches for a food name. */
  function VendorsUrl(food: FoodName): string {
    VendorsPrefix + food
  }

  /** The URL stage two fetches for a vendor ID, the ID written in decimal. */
  function PricesUrl(id: VendorId): string {
    PricesPrefix + Numbers.Render(id)
  }

  /** The `:param` of the route at `prefix`, when `url` is that route. */
  function Param(url: string, prefix: string): (r: Option<string>)
    ensures r.Some? <==> prefix <= url && IsSegment(url[|prefix|..])
    ensures r.Some? ==> url == prefix + r.value
  {
    if prefix <= url && IsSegment(url[|prefix|..]) then Some(url[|prefix|..]) else None
  }

  /** The JSON body the server sends for a GET of `url`, or None when the body is not JSON. */
  function Dispatch(c: Catalog, url: string): (r: Option<Response>)
    ensures r.None? <==> Param(url, VendorsPrefix).None? && Param(url, PricesPrefix).None?
    ensures r.Some? && r.value.Suppliers? ==>
      forall s :: s in r.value.suppliers ==> s in c.suppliers && url == VendorsPrefix + s.food
    ensures r.Some? && r.value.Vendors? ==>
      forall v :: v in r.value.vendors ==> v in c.vendors && Numbers.ParseInt(url[|PricesPrefix|..]) == Some(v.id)
  {
    match Param(url, VendorsPrefix)
    case Some(food) => Some(Suppliers(FindSuppliers(c, food)))
    case None =>
      match Param(url, PricesPrefix)
      case Some(vendor) => Some(Vendors(FindVendors(c, Numbers.ParseInt(vendor))))
      case None => None
  }

  lemma PrefixesDiffer(s: string)
    ensures !(PricesPrefix <= VendorsPrefix + s)
    ensures !(VendorsPrefix <= PricesPrefix + s)
  {
    assert (VendorsPrefix + s)[26] == 'v';
    assert (PricesPrefix + s)[26] == 'p';
  }

  lemma ParamOfRoute(prefix: string, segment: string)
    requires IsSegment(segment)
    ensures Param(prefix + segment, prefix) == Some(segment)
  {
  }

  /**
   * A vendors URL reaches the supplier route with the food name as its
   * parameter; a name that is not one plain path segment (the empty name, say)
   * reaches no JSON route.
   */
  lemma DispatchVendorsUrl(c: Catalog, food: FoodName)
    ensures IsSegment(food) ==> Dispatch(c, VendorsUrl(food)) == Some(Suppliers(FindSuppliers(c, food)))
    ensures !IsSegment(food) ==> Dispatch(c, VendorsUrl(food)) == None
  {
  }

  lemma RenderIsSegment(id: VendorId)
    ensures IsSegment(Numbers.Render(id))
  {
  }

  /** A prices URL reaches the price route, and the route's `parseInt` reads back exactly the ID. */
  lemma DispatchPricesUrl(c: Catalog, id: VendorId)
    ensures Dispatch(c, PricesUrl(id)) == Some(Vendors(FindVendors(c, Some(id))))
  {
    var text := Numbers.Render(id);
    RenderIsSegment(id);
    PrefixesDiffer(text);
    assert Param(PricesUrl(id), VendorsPrefix) == None;
    ParamOfRoute(PricesPrefix, text);
    Numbers.ParseRenderRoundTrip(id);
  }
}

=== FILE: wrappers.dfy ===
/** The optional and two-way outcomes shared by the model. */
module Wrappers {

  /** `None` plays JavaScript's `undefined` wherever the source may hold no value. */
  datatype Option<+T> = None | Some(value: T)

  /** The outcome of an async function: it resolves with a value or rejects with an error. */
  datatype Result<+T, +E> = Success(value: T) | Failure(error: E)
}
